=== FILE: README.md ===
# phosphor-float-area in Dafny

A model of the pure logic inside phosphor-float-area, a set of floating, draggable and resizable dialog panels built on the Phosphor widget toolkit. The model covers four parts:

- **Dialog drag session** (`resize_handle.dfy`, `dialog.dfy`). This covers:
  - the eight resize handles and their class names;
  - the class-name pattern `charto-Dialog-resize-([ns]?)([ew]?)( |$)`, modelled as a leftmost-match, backtracking matcher;
  - the mapping from the captures to the flags `(moveX, moveY, resizeX, resizeY)`;
  - the anchoring of a drag at mouse-down;
  - the geometry set on every mouse-move;
  - the Idle/Dragging state, the three capturing document listeners and the dimmable class.
- **Float-area drop target** (`float_area.dfy`). This covers:
  - the preview size: golden-ratio normalisation, the half-area caps and the `~~(v + 0.5)` rounding;
  - the 40-pixel edge margin;
  - the overlay box arithmetic;
  - the show/hide overlay flag logic;
  - the accept/reject decisions of drag-enter, drag-over, drag-leave and drop.

  Sizes and coordinates are exact reals.
- **Dialog messages** (`dialog_message.dfy`). This covers the type tags of update and raise messages, and conflation of update messages. Conflation keeps only the newest geometry. It is shown for a single conflation, for a fold over a run of updates, and for the host message loop's posting discipline.
- **SimpleLayout** (`simple_layout.dfy`). This covers:
  - the ordered widget list;
  - attaching and detaching child nodes, with the messages this sends;
  - fit and update requests;
  - the inner box computed from padding and border sums;
  - the fan-out of one `updateWidget` call per child.

  It also includes DialogLayout's hook, which gives each child the whole inner box.

Inputs replace measurements and foreign calls: DOM offsets and bounding rectangles, pointer coordinates, the drag image, and whether the dragged widget is known and sits inside a dialog. Side effects come back as ordered effect lists. These include messages sent to widgets, fit and update requests, overlay class changes, deparenting and disposal.

Some behaviour of the code that is easy to assume otherwise:

- A mouse-move sets the dialog's geometry directly through `Widget.setGeometry` (src/Dialog.ts:133). No update message is posted for it, and nothing in the code clamps geometry.
- A mouse-up ends the drag only for button 0 (src/Dialog.ts:143).
- A drop hides the overlay node with `overlay.hide(0)` (src/FloatArea.ts:219), not through `hideOverlay`, so the `overlayVisible` flag and the drag state stay as they were.
- The float area's layout (src/FloatLayout.ts) has an empty iterator and no-op add and remove, so there is no z-order bookkeeping.

## Model

| member | source | states |
|---|---|---|
| ResizeHandle.MatchHere | src/Dialog.ts:87 | the anchored pattern matches exactly when some capture pair fits the pattern's declarative reading, and the pair it returns comes first in backtracking order (both groups, first only, second only, neither) |
| ResizeHandle.Find | src/Dialog.ts:87 | `className.match` finds the leftmost position where the pattern matches; no earlier position matches, and with no result no position matches at all |
| ResizeHandle.FindSkips | src/Dialog.ts:87 | the search passes over any text without a 'c', shifting the match index by the length of the text |
| ResizeHandle.CursorTokenRejected | src/Dialog.ts:27-34 | a compound cursor modifier (`ns`, `ew`, `nwse`, `nesw`) followed by a space never matches, because the pattern needs a space or the end of the string right after the direction letters |
| ResizeHandle.DirectionTokenMatches | src/Dialog.ts:27-34 | a direction modifier at the end of the attribute matches, capturing its vertical letter and its horizontal letter |
| ResizeHandle.HandleClassMatchesDirection | src/Dialog.ts:27-35 | for each of the eight handle class attributes the constructor builds, the match is the direction modifier at its exact index, never the base class or the cursor modifier |
| Dialog.AxesOf | src/Dialog.ts:90-103 | every flag is in {-1, 0, 1}; a vertical capture 'n' moves the top edge and shrinks by the same amount (moveY 1, resizeY -1), any other vertical capture resizes from the bottom (0, 1), and no capture leaves the axis alone (0, 0); likewise 'w', other and none horizontally |
| Dialog.TargetAxes | src/Dialog.ts:86-111 | a press starts a drag exactly when a child of the dialog has a matching handle class, or when it is the `p-TabBar-content` element whose great-grandparent is the dialog; all other targets are rejected |
| Dialog.Displacement | src/Dialog.ts:113-139 | a pointer delta (dx, dy) from the press point changes x by dx·moveX, y by dy·moveY, width by dx·resizeX and height by dy·resizeY; a zero delta gives back the pressed geometry |
| Dialog.MouseDown | src/Dialog.ts:72-127 | a press is handled exactly when button is 0 and the target is recognised; otherwise nothing changes; a handled press starts Dragging with the flags the target selects, drops the dimmable class and adds the three listeners; a move at the press point then reproduces the measured geometry |
| Dialog.MouseMove | src/Dialog.ts:129-140 | a move sets a geometry exactly when a session is active, and is a no-op when Idle |
| Dialog.MouseUp | src/Dialog.ts:142-153 | a release is handled exactly for button 0, which returns to Idle, restores the dimmable class and removes the three listeners; any other button changes nothing |
| Dialog.HandleEvent | src/Dialog.ts:54-70 | a press or release is consumed exactly when its handler handles it, with the handler's resulting state; a declined one propagates and changes nothing; every move is consumed and applies the move handler's geometry; a key press is consumed and changes nothing |
| Dialog.DirectionAxesAgree | src/Dialog.ts:90-103 | for each direction token, the flags chosen from its captures equal the flags read off its letters |
| Dialog.HandleTargetAxes | src/Dialog.ts:27-103 | pressing any of the eight handles selects exactly the flags its direction token names |
| Dialog.DirectionKeepsOppositeEdges | src/Dialog.ts:133-139 | under any displacement, each direction's flags keep the opposite edge in place, and keep both position and size on an axis the direction does not name |
| Dialog.OppositeEdgeFixed | src/Dialog.ts:72-139 | while a handle is dragged, x + width stays fixed for a 'w' handle, x stays fixed for an 'e' handle (likewise vertically), and an axis the handle does not name neither moves nor resizes |
| Dialog.TabBarMoves | src/Dialog.ts:104-139 | dragging by the tab bar moves the dialog by the pointer delta and never resizes it |
| Dialog.PressThenMove | src/Dialog.ts:72-139 | for any target that selects flags, a primary press followed by a move sets the pressed geometry displaced by the pointer delta weighted with those flags |
| Dialog.DispatchedSession | src/Dialog.ts:54-153 | a primary press on any element that selects flags, a move and a primary release, all through the dispatcher, are each consumed; the move sets the pressed geometry displaced by the pointer delta weighted with those flags, and the release returns to Idle with the dimmable class back |
| Dialog.SessionReleasesListeners | src/Dialog.ts:118-150 | a handled press followed by a primary release leaves the listener set as it was, restores the dimmable class and returns to Idle: no listener leaks |
| FloatArea.OnEdge | src/FloatArea.ts:274-283 | the pointer is on the edge exactly when it is not in the area shrunk by 40 on every side |
| FloatArea.Normalise | src/FloatArea.ts:133-139 | afterwards height = width·0.618 exactly, neither dimension has grown, and one of them kept its value |
| FloatArea.Cap | src/FloatArea.ts:141-150 | afterwards height ≤ half the area's height; whenever a cap fires (width over half the area's width, or height over half its height) the result has height = width·0.618 and one dimension lands on exactly half the area's, the width when the first cap fired and the height ends below half; a size within both halves is unchanged; the width also ends within half the area's width whenever the height ends strictly below half the area's height |
| FloatArea.CapWidthCanExceedHalf | src/FloatArea.ts:147-150 | once the second cap fires, the width can exceed half the area's width (10×80 over a 100×100 area gives width 80.9…) |
| FloatArea.Truncate | src/FloatArea.ts:153-154 | `~~` truncates toward zero: the result is the integer part of a non-negative value, and of a negative value rounded up |
| FloatArea.RoundHalfUp | src/FloatArea.ts:152-154 | for v ≥ -0.5, `~~(v + 0.5)` equals floor(v + 0.5): the nearest integer, with ties going up |
| FloatArea.PreviewSizeBounds | src/FloatArea.ts:120-154 | for non-negative sizes the rounded preview is non-negative and its height is at most half the area's height, rounded; a docked widget's preview keeps height ≈ width·0.618 up to the rounding error of 0.809 |
| FloatArea.PreviewSizeExample | src/FloatArea.ts:133-154 | a docked 400×100 widget normalises to (100/0.618)×100 = 161.8…×100 and previews at 162×100 over a 1000×1000 area |
| FloatArea.ShowOverlay | src/FloatArea.ts:285-300 | showing leaves the overlay visible and the drag state untouched; it has effects only when the overlay was hidden |
| FloatArea.HideOverlay | src/FloatArea.ts:302-312 | hiding leaves the overlay hidden and the drag state untouched; it has effects only when the overlay was visible |
| FloatArea.OverlayTogglesIdempotent | src/FloatArea.ts:285-312 | showing twice, or hiding twice, does nothing the second time |
| FloatArea.DragOver | src/FloatArea.ts:187-216 | with no drag state it declines and changes nothing; on the edge it declines with the overlay hidden; otherwise it accepts, sets dropAction to the proposed action and shows the overlay at the pointer |
| FloatArea.DragEnter | src/FloatArea.ts:100-175 | an enter is accepted exactly when a widget is dragged; otherwise nothing changes; an accepted enter records the computed drag state, and the overlay ends visible exactly when the pointer is off the edge |
| FloatArea.OverlayBoxFillsParent | src/FloatArea.ts:156-210 | after an accepted enter, every overlay box drawn satisfies left + width + right + edgeWidth = parent width and top + height + bottom + edgeHeight = parent height |
| FloatArea.DragLeave | src/FloatArea.ts:177-185 | leaving onto one of the area's own descendants changes nothing; leaving elsewhere hides the overlay and clears the drag state |
| FloatArea.LeaveEndsDrag | src/FloatArea.ts:177-259 | after a leave to outside the area the overlay is hidden and a later drag-over and a later drop are both declined, with no add scheduled; a leave onto one of the area's own descendants keeps the drag-over verdict |
| FloatArea.Drop | src/FloatArea.ts:218-259 | the overlay node is always hidden first; a drop is accepted exactly with drag state, off the edge and with a known widget; a declined drop deparents nothing and schedules nothing; only the unknown-widget case sets 'none'; an accepted drop deparents the widget and schedules an add of the preview size |
| FloatArea.DropInMiddleAccepted | src/FloatArea.ts:218-259 | after an accepted enter, a drop at (500, 300) on a (0, 0, 1000, 800) area is accepted and placed at the pointer less the image offset |
| FloatArea.DropPlacesAtImageCorner | src/FloatArea.ts:104-254 | after any accepted enter, a drop is accepted exactly when the pointer is off the edge of the area measured on enter; the scheduled dialog has the preview size, and its corner, in viewport coordinates, is the pointer less the drag image's layout-to-screen offset (the pointer itself with no drag image), however the area has moved since |
| DialogMessage.TypeTags | src/DialogMessage.ts:21-65 | update messages carry 'dialog-update' and are conflatable; raise messages carry 'dialog-raise' and are not |
| DialogMessage.Conflate | src/DialogMessage.ts:38-50 | conflation is accepted exactly for the same dialog; a refusal leaves the pending message alone; an acceptance takes the newer x, y, width and height; the dialog and event never change |
| DialogMessage.ConflateIdempotent | src/DialogMessage.ts:38-50 | conflating the same newer message twice gives the same result as once |
| DialogMessage.LatestGeometryWins | src/DialogMessage.ts:36-50 | folding a run of same-dialog updates leaves the last one's geometry, under the pending message's own dialog and event |
| DialogMessage.Post | src/DialogMessage.ts:36-50 | posting either appends the message or conflates it into a pending one, keeping every pending message's dialog and type; a non-conflatable message is always appended |
| DialogMessage.PostConflatesPending | src/DialogMessage.ts:36-50 | posting an update for a dialog with one pending update leaves exactly one, carrying the newest geometry |
| DialogMessage.TwoUpdatesLeaveOne | src/DialogMessage.ts:36-50 | two updates for a dialog with nothing pending leave exactly one pending update, with the later values |
| DialogMessage.PostFrame | src/DialogMessage.ts:36-50 | posting an update for another dialog, or a raise, leaves a dialog's pending updates exactly as they were |
| SimpleLayout.AttachWidget | src/SimpleLayout.ts:76-90 | attaching a node that is already a child is a no-op; otherwise the node is appended after its geometry is prepared, with attach messages exactly when the parent is attached |
| SimpleLayout.AttachIdempotent | src/SimpleLayout.ts:76-90 | attaching the same node a second time changes nothing and has no effects |
| SimpleLayout.AddWidget | src/SimpleLayout.ts:19-26 | the widget is appended at the end of the list; a node not yet a child is appended after the existing children with the rest of the parent unchanged, and a node already a child leaves the parent as it was; the last effect is the fit request |
| SimpleLayout.IterInsertionOrder | src/SimpleLayout.ts:10-26 | iteration after adding widgets yields the earlier list followed by the added widgets in insertion order |
| SimpleLayout.Without | src/SimpleLayout.ts:35-43 | removing a child node keeps exactly the other children; a node that is not a child leaves the list as it was |
| SimpleLayout.WithoutOne | src/SimpleLayout.ts:40 | removing a node that occurs once, at index k, leaves the children before and after it in their order |
| SimpleLayout.RemoveWidget | src/SimpleLayout.ts:28-43 | with no parent nothing happens; with one, the node is detached, the other children keep their order, everything else about the parent is unchanged, and a fit is requested, or the DOM throws when the node is not a child; the widget list is never shortened |
| SimpleLayout.UpdateWidgets | src/SimpleLayout.ts:70-74 | there is exactly one hook call per listed widget, in list order, each with the same box |
| SimpleLayout.Update | src/SimpleLayout.ts:59-74 | every listed widget gets the inner box of the given outer size |
| SimpleLayout.OnUpdateRequest | src/SimpleLayout.ts:51-68 | an update request gives every listed widget, in order, the origin (paddingTop, paddingLeft) and the measured offset size less the padding and border sums, and only when the parent is visible |
| SimpleLayout.OnResize | src/SimpleLayout.ts:55-68 | only when the parent is visible, a resize gives every listed widget, in order, the origin (paddingTop, paddingLeft) and the message's width and height less the padding and border sums |
| SimpleLayout.DisposeAfterAdds | src/SimpleLayout.ts:14-26 | disposing a layout disposes the widgets it held and then every widget added since, in the order they were added |
| SimpleLayout.AddedWidgetLaidOut | src/SimpleLayout.ts:19-68 | the fit request an add ends with asks the parent to update exactly when it is attached; the update request that follows on a visible parent gives the new widget, last in order, the inner box of the parent's measured size |
| SimpleLayout.RemovedWidgetStillDisposed | src/SimpleLayout.ts:14-33 | because removal keeps the list, disposing the layout still disposes a removed widget |
| SimpleLayout.DialogChildrenFillInnerBox | src/DialogLayout.ts:30-32 | in a dialog, a visible resize sets every child's geometry to the whole inner box |

## Left out

- DOM and Phosphor plumbing are left out. This covers:
  - event-listener registration mechanics (only the set of installed document listeners is kept);
  - `MessageLoop.sendMessage` delivery (messages are recorded as effects);
  - measuring with `getBoundingClientRect`, `offset*` and `boxSizing` (measurements are inputs);
  - the overlay's rendering and CSS classes other than the dimmable flag.
- The target's `parentNode` chain is reduced to two booleans. A missing grandparent would make the source throw, and that case is not modelled.
- Looking up the dragged widget (MIME type, factory call, `instanceof`, `contains`) is a foreign call. It is an optional widget input.
- The deferred add after a drop (`setTimeout`) is asynchronous scheduling. The model returns the scheduled request and computes its placement from the rectangle measured when it runs. The float area's own `addWidget` goes to a layout stub that ignores it.
- The float area's event dispatcher (`handleEvent`) is not a member of its own. It consumes an enter, over or drop event exactly when the handler's `accepted` flag is true, and it lets every leave event propagate.
- The synthetic leave event (`sendLeaveEvent`) is reduced to one effect. `setDropTarget` patches prototypes, which is left out.
- The float area's layout (src/FloatLayout.ts) is a stub with an empty iterator and no-op add and remove, so there is nothing to model.
- DialogLayout's constructor, `addWidget`, `removeWidget` and `onFitRequest` only delegate to SimpleLayout. Only its `updateWidget` hook is modelled.
- Widget attach and detach hooks (`onBeforeAttach`, `onAfterDetach`) only add or remove listeners on the node. `Dialog.addWidget` only delegates to the layout.
- The mouse events and positions a DialogMessage carries are opaque identifiers and integers.
- DialogMessage.Post: the posting discipline belongs to the host message loop, which is not part of this model. The model assumes it: a conflatable message is offered to pending messages of the same type in queue order, and it is dropped when one accepts it.
- FloatArea.Truncate: does not model the 32-bit wrap-around of `~~`, because preview sizes are far below 2^31.
- FloatArea.RoundHalfUp: states round-half-up only for v ≥ -0.5, because below that truncation toward zero no longer equals floor.
- Geometry is exact: real arithmetic for the float area, and unbounded integers for the dialog's pointer coordinates and offsets and for layout boxes. There is no IEEE rounding.
- SimpleLayout.AddWidget: requires a parent, as the source's non-null assertion `this.parent!` does. The model does not say what happens when that assertion fails.
- SimpleLayout.OnResize: passes the message's size through as it is, including the framework's -1 "unknown size" value. The source does not check for that value either.

=== FILE: dialog.dfy ===
/**
  The drag session of a floating dialog (src/Dialog.ts).

  A primary-button mouse-down on a resize handle or on the tab bar of the
  dialog's content starts a session: the dialog records, per axis, whether the
  pointer moves its near edge (`moveX`, `moveY`) and how it changes its size
  (`resizeX`, `resizeY`), and anchors the starting geometry by subtracting the
  pointer position. Every mouse-move then sets the geometry to the anchor plus
  the pointer position weighted by those flags, and a primary-button mouse-up
  ends the session. Measurements of the DOM (offsets, pointer coordinates) are
  inputs; the document listeners and the dimmable class are kept as state.
 */
module Dialog {
  import opened Wrappers
  import ResizeHandle

  /** Per-axis weights of the pointer position: how it moves and resizes the dialog. */
  datatype Axes = Axes(moveX: int, moveY: int, resizeX: int, resizeY: int)

  /** A node's offsetLeft/offsetTop/offsetWidth/offsetHeight, or the arguments of a geometry update. */
  datatype Geometry = Geometry(x: int, y: int, width: int, height: int)

  /** The session record: flags plus the starting geometry minus the weighted pointer position. */
  datatype DragData = DragData(axes: Axes, x1: int, y1: int, w1: int, h1: int)

  /**
    The element a mouse-down hit, as far as the handler inspects it: its class
    attribute, whether its parent is the dialog node, and whether its
    great-grandparent is.
   */
  datatype Target = Target(className: string, parentIsDialog: bool, greatGrandparentIsDialog: bool)

  datatype MouseEvent = MouseEvent(button: int, clientX: int, clientY: int, target: Target)

  /** The capturing document listeners a session installs. */
  datatype Listener = MouseMoveListener | MouseUpListener | KeyDownListener

  const DragListeners: set<Listener> := {MouseMoveListener, MouseUpListener, KeyDownListener}

  /** The class a tab bar's content element carries; pressing it moves the dialog. */
  const TabBarContentClass: string := "p-TabBar-content"

  datatype DragState = Idle | Dragging(data: DragData)

  /** Dialog state: the session, whether the dimmable class is present, and the installed listeners. */
  datatype DialogState = DialogState(drag: DragState, dimmable: bool, listeners: set<Listener>)

  /** A handler's result: whether it handled the event, and the state after it. */
  datatype Step = Step(handled: bool, state: DialogState)

  /** Every flag is -1, 0 or 1. */
  predicate UnitFlags(a: Axes)
  {
    && -1 <= a.moveX <= 1 && -1 <= a.moveY <= 1
    && -1 <= a.resizeX <= 1 && -1 <= a.resizeY <= 1
  }

  /**
    On each axis one edge stays where it is: either the near edge does not
    move, or the size shrinks by exactly what the near edge moves.
   */
  predicate EdgeAnchored(a: Axes)
  {
    && (a.moveX == 0 || a.moveX + a.resizeX == 0)
    && (a.moveY == 0 || a.moveY + a.resizeY == 0)
  }

  /**
    The flags a handle's captures select: 'n' moves the top edge, 's' resizes
    from the bottom, 'w' moves the left edge, 'e' resizes from the right, and
    an empty capture leaves that axis alone.
   */
  function AxesOf(g: ResizeHandle.Groups): (a: Axes)
    ensures UnitFlags(a) && EdgeAnchored(a)
    ensures g.vertical.None? ==> a.moveY == 0 && a.resizeY == 0
    ensures g.vertical == Some('n') ==> a.moveY == 1 && a.resizeY == -1
    ensures g.vertical.Some? && g.vertical != Some('n') ==> a.moveY == 0 && a.resizeY == 1
    ensures g.horizontal.None? ==> a.moveX == 0 && a.resizeX == 0
    ensures g.horizontal == Some('w') ==> a.moveX == 1 && a.resizeX == -1
    ensures g.horizontal.Some? && g.horizontal != Some('w') ==> a.moveX == 0 && a.resizeX == 1
  {
    var north := g.vertical == Some('n');
    var west := g.horizontal == Some('w');
    Axes(
      if west then 1 else 0,
      if north then 1 else 0,
      if g.horizontal.None? then 0 else if west then -1 else 1,
      if g.vertical.None? then 0 else if north then -1 else 1)
  }

  /**
    Which drag, if any, a pressed element starts: a child of the dialog must
    carry a handle class the pattern matches; otherwise only the tab bar's
    content element of the dialog's content starts a pure move.
   */
  function TargetAxes(t: Target): (r: Option<Axes>)
    ensures r.Some? ==> UnitFlags(r.value)
    ensures r.Some? && t.parentIsDialog ==> EdgeAnchored(r.value)
    ensures r.Some? <==>
      if t.parentIsDialog then ResizeHandle.Find(t.className).Some?
      else t.className == TabBarContentClass && t.greatGrandparentIsDialog
  {
    if t.parentIsDialog then
      var m := ResizeHandle.Find(t.className);
      if m.Some? then Some(AxesOf(m.value.groups)) else None
    else if t.className == TabBarContentClass && t.greatGrandparentIsDialog then
      Some(Axes(1, 1, 0, 0))
    else None
  }

  /** Subtracts the weighted pointer position from the starting geometry. */
  function Anchor(a: Axes, node: Geometry, clientX: int, clientY: int): DragData
  {
    DragData(a,
      node.x - clientX * a.moveX, node.y - clientY * a.moveY,
      node.width - clientX * a.resizeX, node.height - clientY * a.resizeY)
  }

  /** The geometry a session asks for with the pointer at (clientX, clientY). */
  function Position(d: DragData, clientX: int, clientY: int): Geometry
  {
    Geometry(
      d.x1 + clientX * d.axes.moveX, d.y1 + clientY * d.axes.moveY,
      d.w1 + clientX * d.axes.resizeX, d.h1 + clientY * d.axes.resizeY)
  }

  /**
    A pointer delta (dx, dy) from the press point changes the geometry by the
    delta weighted with the session's flags; a zero delta gives back the
    geometry the dialog had when it was pressed.
   */
  lemma Displacement(a: Axes, node: Geometry, clientX: int, clientY: int, dx: int, dy: int)
    ensures Position(Anchor(a, node, clientX, clientY), clientX + dx, clientY + dy)
      == Geometry(node.x + dx * a.moveX, node.y + dy * a.moveY,
                  node.width + dx * a.resizeX, node.height + dy * a.resizeY)
  {
    assert (clientX + dx) * a.moveX == clientX * a.moveX + dx * a.moveX;
    assert (clientY + dy) * a.moveY == clientY * a.moveY + dy * a.moveY;
    assert (clientX + dx) * a.resizeX == clientX * a.resizeX + dx * a.resizeX;
    assert (clientY + dy) * a.resizeY == clientY * a.resizeY + dy * a.resizeY;
  }

  /**
    A mouse-down. A non-primary button or an unrecognised element is not
    handled and changes nothing; otherwise a session starts, the dimmable class
    goes away and the three document listeners are installed. A mouse-move at
    the press point then reproduces the measured geometry.
   */
  function MouseDown(st: DialogState, node: Geometry, ev: MouseEvent): (r: Step)
    ensures r.handled <==> ev.button == 0 && TargetAxes(ev.target).Some?
    ensures !r.handled ==> r.state == st
    ensures r.handled ==>
      && r.state.drag.Dragging?
      && r.state.drag.data.axes == TargetAxes(ev.target).value
      && UnitFlags(r.state.drag.data.axes)
      && !r.state.dimmable
      && r.state.listeners == st.listeners + DragListeners
    ensures r.handled ==> MouseMove(r.state, ev) == Some(node)
  {
    if ev.button != 0 then Step(false, st)
    else
      match TargetAxes(ev.target)
      case None => Step(false, st)
      case Some(a) =>
        var d := Anchor(a, node, ev.clientX, ev.clientY);
        Displacement(a, node, ev.clientX, ev.clientY, 0, 0);
        Step(true, DialogState(Dragging(d), false, st.listeners + DragListeners))
  }

  /**
    A mouse-move: the geometry update the dialog applies to itself, which is
    none without a session. Nothing clamps it.
   */
  function MouseMove(st: DialogState, ev: MouseEvent): (r: Option<Geometry>)
    ensures r.None? <==> st.drag.Idle?
  {
    match st.drag
    case Idle => None
    case Dragging(d) => Some(Position(d, ev.clientX, ev.clientY))
  }

  /**
    A mouse-up. Only the primary button ends the session: it restores the
    dimmable class, removes the three listeners and returns to Idle. Any
    other button changes nothing.
   */
  function MouseUp(st: DialogState, ev: MouseEvent): (r: Step)
    ensures r.handled <==> ev.button == 0
    ensures !r.handled ==> r.state == st
    ensures r.handled ==> r.state.drag.Idle? && r.state.dimmable
    ensures r.handled ==> r.state.listeners !! DragListeners
    ensures r.handled ==> r.state.listeners + DragListeners == st.listeners + DragListeners
  {
    if ev.button != 0 then Step(false, st)
    else Step(true, DialogState(Idle, true, st.listeners - DragListeners))
  }

  datatype EventKind = MouseDownEvent | MouseMoveEvent | MouseUpEvent | KeyDownEvent

  /**
    The result of the dialog's event dispatcher: whether it called
    preventDefault and stopPropagation, the state after, and the geometry it
    applied, if any.
   */
  datatype Dispatch = Dispatch(consumed: bool, state: DialogState, geometry: Option<Geometry>)

  /**
    The dispatcher: a mouse-down or mouse-up the handler declines propagates
    untouched; every other event, key presses included, is consumed.
   */
  function HandleEvent(st: DialogState, node: Geometry, kind: EventKind, ev: MouseEvent): (r: Dispatch)
    ensures !r.consumed ==> r.state == st && r.geometry.None?
    ensures r.geometry.Some? ==> kind == MouseMoveEvent && st.drag.Dragging?
    ensures kind == MouseDownEvent ==>
      var s := MouseDown(st, node, ev); r == Dispatch(s.handled, s.state, None)
    ensures kind == MouseUpEvent ==>
      var s := MouseUp(st, ev); r == Dispatch(s.handled, s.state, None)
    ensures kind == MouseMoveEvent ==> r.consumed && r.state == st && r.geometry == MouseMove(st, ev)
    ensures kind == KeyDownEvent ==> r == Dispatch(true, st, None)
  {
    match kind
    case MouseDownEvent =>
      var s := MouseDown(st, node, ev);
      Dispatch(s.handled, s.state, None)
    case MouseMoveEvent => Dispatch(true, st, MouseMove(st, ev))
    case MouseUpEvent =>
      var s := MouseUp(st, ev);
      Dispatch(s.handled, s.state, None)
    case KeyDownEvent => Dispatch(true, st, None)
  }

  /**
    The flags a direction token stands for, read off its letters: an
    independent statement of what each of the eight handles does.
   */
  function DirectionAxes(dir: string): Axes
  {
    Axes(
      if 'w' in dir then 1 else 0,
      if 'n' in dir then 1 else 0,
      if 'w' in dir then -1 else if 'e' in dir then 1 else 0,
      if 'n' in dir then -1 else if 's' in dir then 1 else 0)
  }

  /** The handle element the constructor creates for handle i, as a mouse-down target. */
  function HandleTarget(i: nat): Target
    requires i < |ResizeHandle.Handles|
  {
    Target(ResizeHandle.HandleClassName(ResizeHandle.Handles[i].0, ResizeHandle.Handles[i].1), true, false)
  }

  /** The captures of a direction token select the flags its letters name. */
  lemma DirectionAxesAgree(dir: string)
    requires dir in ["n", "e", "s", "w", "nw", "ne", "sw", "se"]
    ensures AxesOf(ResizeHandle.DirectionGroups(dir)) == DirectionAxes(dir)
  {
    var g := ResizeHandle.DirectionGroups(dir);
    if dir == "n" { assert g == ResizeHandle.Groups(Some('n'), None); }
    else if dir == "e" { assert g == ResizeHandle.Groups(None, Some('e')); }
    else if dir == "s" { assert g == ResizeHandle.Groups(Some('s'), None); }
    else if dir == "w" { assert g == ResizeHandle.Groups(None, Some('w')); }
    else if dir == "nw" { assert g == ResizeHandle.Groups(Some('n'), Some('w')); }
    else if dir == "ne" { assert g == ResizeHandle.Groups(Some('n'), Some('e')); }
    else if dir == "sw" { assert g == ResizeHandle.Groups(Some('s'), Some('w')); }
    else { assert g == ResizeHandle.Groups(Some('s'), Some('e')); }
  }

  /** Pressing any of the eight handles selects exactly the flags its direction token names. */
  lemma HandleTargetAxes(i: nat)
    requires i < |ResizeHandle.Handles|
    ensures TargetAxes(HandleTarget(i)) == Some(DirectionAxes(ResizeHandle.Handles[i].1))
  {
    var (cursor, dir) := ResizeHandle.Handles[i];
    assert cursor in ["ns", "ew", "nwse", "nesw"];
    assert dir in ["n", "e", "s", "w", "nw", "ne", "sw", "se"];
    ResizeHandle.ClassNameMatchesDirection(cursor, dir);
    DirectionAxesAgree(dir);
  }

  /** Which edges a direction's flags keep in place under any displacement. */
  predicate OppositeEdgesKept(dir: string, node: Geometry, g: Geometry)
  {
    && ('w' in dir ==> g.x + g.width == node.x + node.width)
    && ('e' in dir ==> g.x == node.x)
    && ('n' in dir ==> g.y + g.height == node.y + node.height)
    && ('s' in dir ==> g.y == node.y)
    && ('w' !in dir && 'e' !in dir ==> g.x == node.x && g.width == node.width)
    && ('n' !in dir && 's' !in dir ==> g.y == node.y && g.height == node.height)
  }

  lemma DirectionKeepsOppositeEdges(dir: string, node: Geometry, dx: int, dy: int)
    requires dir in ["n", "e", "s", "w", "nw", "ne", "sw", "se"]
    ensures var a := DirectionAxes(dir);
      OppositeEdgesKept(dir, node, Geometry(node.x + dx * a.moveX, node.y + dy * a.moveY,
                                            node.width + dx * a.resizeX, node.height + dy * a.resizeY))
  {
    if dir == "n" {} else if dir == "e" {} else if dir == "s" {} else if dir == "w" {}
    else if dir == "nw" {} else if dir == "ne" {} else if dir == "sw" {} else {}
  }

  /**
    A handled press on an element that selects flags a, followed by a move:
    the move sets the pressed geometry displaced by the pointer delta
    weighted with a.
   */
  lemma PressThenMove(a: Axes, st: DialogState, node: Geometry, down: MouseEvent, move: MouseEvent)
    requires down.button == 0 && TargetAxes(down.target) == Some(a)
    ensures MouseDown(st, node, down).handled
    ensures var dx, dy := move.clientX - down.clientX, move.clientY - down.clientY;
      MouseMove(MouseDown(st, node, down).state, move)
        == Some(Geometry(node.x + dx * a.moveX, node.y + dy * a.moveY,
                         node.width + dx * a.resizeX, node.height + dy * a.resizeY))
  {
    var d := Anchor(a, node, down.clientX, down.clientY);
    assert MouseDown(st, node, down).state.drag == Dragging(d);
    Displacement(a, node, down.clientX, down.clientY, move.clientX - down.clientX, move.clientY - down.clientY);
  }

  /**
    While a handle is dragged, the edge opposite the named one stays put, and
    an axis the direction does not name keeps both its position and its size.
   */
  lemma OppositeEdgeFixed(i: nat, st: DialogState, node: Geometry, down: MouseEvent, move: MouseEvent)
    requires i < |ResizeHandle.Handles|
    requires down.button == 0 && down.target == HandleTarget(i)
    ensures MouseDown(st, node, down).handled
    ensures OppositeEdgesKept(ResizeHandle.Handles[i].1, node,
                              MouseMove(MouseDown(st, node, down).state, move).value)
  {
    var dir := ResizeHandle.Handles[i].1;
    assert dir in ["n", "e", "s", "w", "nw", "ne", "sw", "se"];
    HandleTargetAxes(i);
    PressThenMove(DirectionAxes(dir), st, node, down, move);
    DirectionKeepsOppositeEdges(dir, node, move.clientX - down.clientX, move.clientY - down.clientY);
  }

  /** Pressing the tab bar of the dialog's content starts a pure move, which never resizes. */
  lemma TabBarMoves(st: DialogState, node: Geometry, down: MouseEvent, move: MouseEvent)
    requires down.button == 0 && down.target == Target(TabBarContentClass, false, true)
    ensures MouseDown(st, node, down).handled
    ensures MouseMove(MouseDown(st, node, down).state, move)
      == Some(Geometry(node.x + (move.clientX - down.clientX), node.y + (move.clientY - down.clientY),
                       node.width, node.height))
  {
    Displacement(Axes(1, 1, 0, 0), node, down.clientX, down.clientY,
      move.clientX - down.clientX, move.clientY - down.clientY);
  }

  /**
    A whole drag through the dispatcher: a primary press on an element that
    selects flags a, a move and a primary release are all consumed; the move
    sets the pressed geometry displaced by the pointer delta weighted with a,
    and the release ends the session.
   */
  lemma DispatchedSession(a: Axes, st: DialogState, node: Geometry, down: MouseEvent, move: MouseEvent, up: MouseEvent)
    requires down.button == 0 && TargetAxes(down.target) == Some(a) && up.button == 0
    ensures var pressed := HandleEvent(st, node, MouseDownEvent, down);
      var moved := HandleEvent(pressed.state, node, MouseMoveEvent, move);
      var released := HandleEvent(moved.state, node, MouseUpEvent, up);
      var dx, dy := move.clientX - down.clientX, move.clientY - down.clientY;
      && pressed.consumed && moved.consumed && released.consumed
      && moved.geometry == Some(Geometry(node.x + dx * a.moveX, node.y + dy * a.moveY,
                                         node.width + dx * a.resizeX, node.height + dy * a.resizeY))
      && released.state.drag.Idle? && released.state.dimmable
  {
    var d := Anchor(a, node, down.clientX, down.clientY);
    var pressed := HandleEvent(st, node, MouseDownEvent, down);
    assert pressed.state.drag == Dragging(d);
    Displacement(a, node, down.clientX, down.clientY, move.clientX - down.clientX, move.clientY - down.clientY);
  }

  /**
    A whole session (handled press, then primary release) leaves the listener
    set as it found it and restores the dimmable class: no listener leaks.
   */
  lemma SessionReleasesListeners(st: DialogState, node: Geometry, down: MouseEvent, up: MouseEvent)
    requires st.listeners !! DragListeners
    requires MouseDown(st, node, down).handled && up.button == 0
    ensures var after := MouseUp(MouseDown(st, node, down).state, up).state;
      after == DialogState(Idle, true, st.listeners)
  {
    var after := MouseUp(MouseDown(st, node, down).state, up).state;
    assert after.listeners == st.listeners;
  }
}

=== FILE: dialog_message.dfy ===
/**
  Messages a dialog sends to its parent layout (src/DialogMessage.ts): an
  update asking to move or resize the dialog, which is conflatable, and a
  raise asking to bring it to the front, which is not.

  Dialogs and mouse events are identified by numbers; a message's optional
  event is `None` when no mouse event caused it.
 */
module DialogMessage {
  import opened Wrappers

  type DialogId = nat
  type EventId = nat

  datatype UpdateMessage = UpdateMessage(
    widget: DialogId, x: int, y: int, width: int, height: int, event: Option<EventId>)

  datatype RaiseMessage = RaiseMessage(widget: DialogId, event: Option<EventId>)

  datatype Message = Update(update: UpdateMessage) | Raise(raise: RaiseMessage)
  {
    /** The message type tag. */
    function Type(): string
    {
      if Update? then "dialog-update" else "dialog-raise"
    }

    /** Whether the message loop may merge this message into a pending one. */
    predicate IsConflatable()
    {
      Update?
    }

    function Widget(): DialogId
    {
      if Update? then update.widget else raise.widget
    }
  }

  /** Only update messages are conflatable, and the two kinds carry different tags. */
  lemma TypeTags(u: UpdateMessage, r: RaiseMessage)
    ensures Update(u).Type() == "dialog-update" && Update(u).IsConflatable()
    ensures Raise(r).Type() == "dialog-raise" && !Raise(r).IsConflatable()
    ensures Update(u).Type() != Raise(r).Type()
  {
  }

  /** A pending message after an attempt to conflate a newer one into it. */
  datatype Conflation = Conflation(accepted: bool, pending: UpdateMessage)

  /**
    Conflating a newer update into a pending one: refused for another dialog,
    leaving the pending message alone; accepted for the same dialog, taking
    the newer geometry while the pending message keeps its dialog and event.
   */
  function Conflate(pending: UpdateMessage, newer: UpdateMessage): (r: Conflation)
    ensures r.accepted <==> pending.widget == newer.widget
    ensures !r.accepted ==> r.pending == pending
    ensures r.pending.widget == pending.widget && r.pending.event == pending.event
    ensures r.accepted ==>
      && r.pending.x == newer.x && r.pending.y == newer.y
      && r.pending.width == newer.width && r.pending.height == newer.height
  {
    if pending.widget != newer.widget then Conflation(false, pending)
    else Conflation(true, pending.(x := newer.x, y := newer.y, width := newer.width, height := newer.height))
  }

  /** Conflating the same newer message again changes nothing more. */
  lemma ConflateIdempotent(pending: UpdateMessage, newer: UpdateMessage)
    ensures var once := Conflate(pending, newer);
      Conflate(once.pending, newer) == once
  {
  }

  /** Conflates each newer message into the pending one, oldest first. */
  function ConflateAll(pending: UpdateMessage, newer: seq<UpdateMessage>): UpdateMessage
    decreases |newer|
  {
    if |newer| == 0 then pending
    else ConflateAll(Conflate(pending, newer[0]).pending, newer[1..])
  }

  /** Same geometry; dialog and event may differ. */
  predicate SameGeometry(a: UpdateMessage, b: UpdateMessage)
  {
    a.x == b.x && a.y == b.y && a.width == b.width && a.height == b.height
  }

  /**
    Folding a run of updates for the pending message's dialog leaves only the
    latest geometry, under the pending message's own dialog and event.
   */
  lemma {:induction false} LatestGeometryWins(pending: UpdateMessage, newer: seq<UpdateMessage>)
    requires 0 < |newer|
    requires forall i :: 0 <= i < |newer| ==> newer[i].widget == pending.widget
    ensures var r := ConflateAll(pending, newer);
      && SameGeometry(r, newer[|newer| - 1])
      && r.widget == pending.widget && r.event == pending.event
    decreases |newer|
  {
    var next := Conflate(pending, newer[0]).pending;
    if |newer| > 1 {
      LatestGeometryWins(next, newer[1..]);
    }
  }

  /**
    The host message loop's posting discipline for one receiver: a
    non-conflatable message is appended; a conflatable one is offered to each
    pending message of the same type in turn and dropped as soon as one
    accepts it, otherwise appended.
   */
  function Post(queue: seq<Message>, msg: Message): (r: seq<Message>)
    ensures |r| == |queue| || r == queue + [msg]
    ensures !msg.IsConflatable() ==> r == queue + [msg]
    ensures forall i :: 0 <= i < |queue| && i < |r| ==> r[i].Widget() == queue[i].Widget() && r[i].Type() == queue[i].Type()
    decreases |queue|
  {
    if !msg.IsConflatable() || |queue| == 0 then queue + [msg]
    else
      var head := queue[0];
      if head.Update? && Conflate(head.update, msg.update).accepted then
        [Update(Conflate(head.update, msg.update).pending)] + queue[1..]
      else
        var rest := Post(queue[1..], msg);
        assert forall i :: 0 < i <= |rest| ==> ([head] + rest)[i] == rest[i - 1];
        [head] + rest
  }

  /** The pending update messages for dialog w. */
  function UpdatesFor(queue: seq<Message>, w: DialogId): seq<UpdateMessage>
  {
    if |queue| == 0 then []
    else
      var here := if queue[0].Update? && queue[0].update.widget == w then [queue[0].update] else [];
      here + UpdatesFor(queue[1..], w)
  }

  /**
    Posting an update for a dialog that already has one pending leaves a
    single pending update for it, carrying the newest geometry.
   */
  lemma {:induction false} PostConflatesPending(queue: seq<Message>, u: UpdateMessage)
    requires |UpdatesFor(queue, u.widget)| == 1
    ensures var after := UpdatesFor(Post(queue, Update(u)), u.widget);
      |after| == 1 && SameGeometry(after[0], u)
    decreases |queue|
  {
    var head := queue[0];
    if head.Update? && head.update.widget == u.widget {
      var merged := Conflate(head.update, u).pending;
      assert Post(queue, Update(u)) == [Update(merged)] + queue[1..];
      assert UpdatesFor(queue, u.widget) == [head.update] + UpdatesFor(queue[1..], u.widget);
      assert ([Update(merged)] + queue[1..])[1..] == queue[1..];
    } else {
      assert UpdatesFor(queue, u.widget) == UpdatesFor(queue[1..], u.widget);
      PostConflatesPending(queue[1..], u);
      var rest := Post(queue[1..], Update(u));
      assert Post(queue, Update(u)) == [head] + rest;
      assert ([head] + rest)[1..] == rest;
    }
  }

  /**
    Two updates for a dialog with nothing pending, posted before the queue
    drains, leave exactly one pending update for it, with the later values.
   */
  lemma TwoUpdatesLeaveOne(queue: seq<Message>, first: UpdateMessage, second: UpdateMessage)
    requires first.widget == second.widget
    requires |UpdatesFor(queue, first.widget)| == 0
    ensures var after := UpdatesFor(Post(Post(queue, Update(first)), Update(second)), first.widget);
      |after| == 1 && SameGeometry(after[0], second)
  {
    var once := Post(queue, Update(first));
    PostAppendsUnmatched(queue, first);
    assert once == queue + [Update(first)];
    UpdatesForAppend(queue, Update(first), first.widget);
    PostConflatesPending(once, second);
  }

  /** With no pending update for its dialog, an update is appended. */
  lemma {:induction false} PostAppendsUnmatched(queue: seq<Message>, u: UpdateMessage)
    requires |UpdatesFor(queue, u.widget)| == 0
    ensures Post(queue, Update(u)) == queue + [Update(u)]
    decreases |queue|
  {
    if |queue| > 0 {
      assert UpdatesFor(queue, u.widget) == UpdatesFor(queue[1..], u.widget);
      PostAppendsUnmatched(queue[1..], u);
      assert [queue[0]] + (queue[1..] + [Update(u)]) == queue + [Update(u)];
    }
  }

  lemma {:induction false} UpdatesForAppend(queue: seq<Message>, m: Message, w: DialogId)
    ensures UpdatesFor(queue + [m], w)
      == UpdatesFor(queue, w) + (if m.Update? && m.update.widget == w then [m.update] else [])
    decreases |queue|
  {
    if |queue| == 0 {
      assert queue + [m] == [m];
    } else {
      assert (queue + [m])[1..] == queue[1..] + [m];
      UpdatesForAppend(queue[1..], m, w);
    }
  }

  /**
    Posting a message that is not an update for dialog w (an update for
    another dialog, or a raise) leaves w's pending updates exactly as they
    were.
   */
  lemma {:induction false} PostFrame(queue: seq<Message>, msg: Message, w: DialogId)
    requires !(msg.Update? && msg.update.widget == w)
    ensures UpdatesFor(Post(queue, msg), w) == UpdatesFor(queue, w)
    decreases |queue|
  {
    if !msg.IsConflatable() || |queue| == 0 {
      UpdatesForAppend(queue, msg, w);
    } else {
      var head := queue[0];
      if head.Update? && Conflate(head.update, msg.update).accepted {
        var merged := Conflate(head.update, msg.update).pending;
        assert merged.widget == head.update.widget;
        assert ([Update(merged)] + queue[1..])[1..] == queue[1..];
      } else {
        PostFrame(queue[1..], msg, w);
        assert ([head] + Post(queue[1..], msg))[1..] == Post(queue[1..], msg);
      }
    }
  }
}

=== FILE: float_area.dfy ===
/**
  The drop target that turns dragged widgets into floating dialogs
  (src/FloatArea.ts): the preview size computed when a drag enters, the edge
  margin inside which drops are left to the surrounding dock panel, the
  overlay box shown while dragging, and the accept/reject decisions of the
  four drag handlers.

  DOM measurements (bounding rectangles, offsets, the drag image) and the
  result of looking up the dragged widget are inputs. Arithmetic is over exact
  reals rather than IEEE doubles.
 */
module FloatArea {
  import opened Wrappers

  /** Width of the margin along each side where drops are declined. */
  const EdgeSize: real := 40.0

  const GoldenRatio: real := 0.618

  /** A bounding client rectangle. */
  datatype Rect = Rect(left: real, top: real, right: real, bottom: real, width: real, height: real)

  datatype Size = Size(width: real, height: real)

  /** A size after rounding to whole pixels. */
  datatype PixelSize = PixelSize(width: int, height: int)

  /** The point (x, y) lies in rect with at least EdgeSize to spare on every side. */
  predicate InInterior(rect: Rect, x: real, y: real)
  {
    && rect.left + EdgeSize <= x <= rect.right - EdgeSize
    && rect.top + EdgeSize <= y <= rect.bottom - EdgeSize
  }

  /** The pointer is strictly closer than EdgeSize to some side of rect. */
  function OnEdge(rect: Rect, x: real, y: real): (r: bool)
    ensures r <==> !InInterior(rect, x, y)
  {
    || x - rect.left < EdgeSize
    || y - rect.top < EdgeSize
    || rect.right - x < EdgeSize
    || rect.bottom - y < EdgeSize
  }

  /**
    Golden-ratio normalisation of a docked widget's size: the larger dimension
    is shrunk until height = width * 0.618; nothing grows, and one dimension
    keeps its value.
   */
  function Normalise(s: Size): (r: Size)
    ensures r.height == r.width * GoldenRatio
    ensures r.width <= s.width && r.height <= s.height
    ensures r.width == s.width || r.height == s.height
  {
    if s.width > s.height / GoldenRatio then Size(s.height / GoldenRatio, s.height)
    else if s.height > s.width * GoldenRatio then Size(s.width, s.width * GoldenRatio)
    else s
  }

  /**
    The half-area caps: a width over half the area's width is cut to it, then
    a height over half the area's height is cut to it, each time recomputing
    the other dimension with the golden ratio. The height always ends within
    half the area, and so does the width whenever the height ends strictly
    below half; once the second cap fires the width can exceed half.
   */
  function Cap(s: Size, rect: Rect): (r: Size)
    ensures r.height <= rect.height / 2.0
    ensures s.width > rect.width / 2.0 || s.height > rect.height / 2.0 ==> r.height == r.width * GoldenRatio
    ensures s.width > rect.width / 2.0 || s.height > rect.height / 2.0 ==>
      r.width == rect.width / 2.0 || r.height == rect.height / 2.0
    ensures s.width > rect.width / 2.0 && r.height < rect.height / 2.0 ==> r.width == rect.width / 2.0
    ensures s.width <= rect.width / 2.0 && s.height <= rect.height / 2.0 ==> r == s
    ensures r.height < rect.height / 2.0 ==> r.width <= rect.width / 2.0
  {
    var first := if s.width > rect.width / 2.0 then Size(rect.width / 2.0, rect.width / 2.0 * GoldenRatio) else s;
    if first.height > rect.height / 2.0 then Size(rect.height / 2.0 / GoldenRatio, rect.height / 2.0)
    else first
  }

  /** The second cap can push the width past half the area. */
  lemma CapWidthCanExceedHalf()
    ensures var rect := Rect(0.0, 0.0, 100.0, 100.0, 100.0, 100.0);
      Cap(Size(10.0, 80.0), rect).width > rect.width / 2.0
  {
  }

  /** `~~x`: truncation toward zero. */
  function Truncate(x: real): (r: int)
    ensures x >= 0.0 ==> r as real <= x < r as real + 1.0
    ensures x < 0.0 ==> r as real - 1.0 < x <= r as real
  {
    if x >= 0.0 then x.Floor else -((-x).Floor)
  }

  /** `~~(v + 0.5)`: for v >= -0.5 this rounds half up, the nearest integer with ties going up. */
  function RoundHalfUp(v: real): (r: int)
    ensures v >= -0.5 ==> r == (v + 0.5).Floor
    ensures v >= -0.5 ==> r as real - 0.5 <= v < r as real + 0.5
  {
    Truncate(v + 0.5)
  }

  /** What the drop target learns about the dragged widget. */
  datatype DraggedWidget = DraggedWidget(id: nat, offsetWidth: real, offsetHeight: real, inDialog: bool)

  /**
    The preview size of a drop: the widget's size, normalised when it is not
    inside a dialog, capped to half the area, rounded to whole pixels.
   */
  function PreviewSize(w: DraggedWidget, rect: Rect): PixelSize
  {
    var s := Size(w.offsetWidth, w.offsetHeight);
    var normal := if w.inDialog then s else Normalise(s);
    var capped := Cap(normal, rect);
    PixelSize(RoundHalfUp(capped.width), RoundHalfUp(capped.height))
  }

  /**
    For non-negative measurements the preview fits the rounded half-height of
    the area, and a docked widget's preview keeps the golden ratio up to the
    rounding of both dimensions (0.5 + 0.5 * 0.618).
   */
  lemma PreviewSizeBounds(w: DraggedWidget, rect: Rect)
    requires w.offsetWidth >= 0.0 && w.offsetHeight >= 0.0 && rect.width >= 0.0 && rect.height >= 0.0
    ensures var p := PreviewSize(w, rect);
      && 0 <= p.width && 0 <= p.height
      && p.height <= RoundHalfUp(rect.height / 2.0)
      && (!w.inDialog ==> -0.809 <= p.height as real - p.width as real * GoldenRatio <= 0.809)
  {
    var s := Size(w.offsetWidth, w.offsetHeight);
    var normal := if w.inDialog then s else Normalise(s);
    var capped := Cap(normal, rect);
    assert capped.width >= 0.0 && capped.height >= 0.0;
    var p := PreviewSize(w, rect);
    assert p.height <= RoundHalfUp(rect.height / 2.0) by {
      assert capped.height + 0.5 <= rect.height / 2.0 + 0.5;
    }
  }

  /** A docked 400x100 widget over a 1000x1000 area previews at 162x100 (161.8... before rounding). */
  lemma PreviewSizeExample()
    ensures Normalise(Size(400.0, 100.0)) == Size(100.0 / 0.618, 100.0)
    ensures PreviewSize(DraggedWidget(0, 400.0, 100.0, false), Rect(0.0, 0.0, 1000.0, 1000.0, 1000.0, 1000.0))
      == PixelSize(162, 100)
  {
    assert 162.0 <= 100.0 / 0.618 + 0.5 < 163.0;
  }

  /** The drag image's placement, when one is shown. */
  datatype DragImage = DragImage(offsetLeft: real, offsetTop: real, rectLeft: real, rectTop: real, offsetHeight: real)

  /** Measurements taken when a drag enters: the image, this area's rectangle, the overlay parent's rectangle. */
  datatype Measure = Measure(image: Option<DragImage>, rect: Rect, parentRect: Rect)

  /**
    Fixed properties of the area: whether it owns its overlay, whether its node
    has a parent, and the border sums of the overlay's parent.
   */
  datatype AreaConfig = AreaConfig(ownOverlay: bool, hasParentNode: bool, edgeWidth: real, edgeHeight: real)

  /** Drag state computed on enter and used by every later drag event. */
  datatype DragData = DragData(
    rect: Rect,
    width: int, height: int,
    imageOffsetX: real, imageOffsetY: real,
    offsetLeft: real, offsetTop: real, offsetRight: real, offsetBottom: real)

  datatype AreaState = AreaState(drag: Option<DragData>, overlayVisible: bool)

  /** The drop actions of the drag protocol; NoAction is 'none'. */
  datatype DropAction = NoAction | CopyAction | LinkAction | MoveAction

  datatype DragEvent = DragEvent(clientX: real, clientY: real, proposedAction: DropAction)

  /** The arguments of the overlay's show call. */
  datatype OverlayBox = OverlayBox(
    mouseX: real, mouseY: real, parentRect: Rect,
    left: real, top: real, right: real, bottom: real, width: int, height: int)

  /** Side effects on the DOM and on other widgets, in the order they happen. */
  datatype Effect =
    | SendLeaveToParent
    | AddNoTransition
    | RemoveNoTransition
    | HideOverlayNode
    | ShowOverlayBox(box: OverlayBox)
    | Deparent(widget: nat)

  datatype Transition = Transition(state: AreaState, effects: seq<Effect>)

  /**
    A handler's result: whether it consumed the event, the state after, its
    effects, and the drop action it set on the event, if any.
   */
  datatype Outcome = Outcome(accepted: bool, state: AreaState, effects: seq<Effect>, dropAction: Option<DropAction>)

  /** Makes the overlay visible; only a change of visibility has effects. */
  function ShowOverlay(cfg: AreaConfig, st: AreaState): (r: Transition)
    ensures r.state == AreaState(st.drag, true)
    ensures st.overlayVisible ==> r.effects == []
    ensures !st.overlayVisible ==> |r.effects| <= 1
  {
    if st.overlayVisible then Transition(st, [])
    else
      var effects :=
        if cfg.ownOverlay then (if cfg.hasParentNode then [SendLeaveToParent] else [])
        else [AddNoTransition];
      Transition(AreaState(st.drag, true), effects)
  }

  /** Hides the overlay; only a change of visibility has effects. */
  function HideOverlay(cfg: AreaConfig, st: AreaState): (r: Transition)
    ensures r.state == AreaState(st.drag, false)
    ensures !st.overlayVisible ==> r.effects == []
    ensures st.overlayVisible ==> |r.effects| == 1
  {
    if !st.overlayVisible then Transition(st, [])
    else Transition(AreaState(st.drag, false), if cfg.ownOverlay then [HideOverlayNode] else [RemoveNoTransition])
  }

  /** Showing or hiding twice in a row is the same as doing it once. */
  lemma OverlayTogglesIdempotent(cfg: AreaConfig, st: AreaState)
    ensures var s := ShowOverlay(cfg, st).state; ShowOverlay(cfg, s) == Transition(s, [])
    ensures var h := HideOverlay(cfg, st).state; HideOverlay(cfg, h) == Transition(h, [])
  {
  }

  /** Where the overlay goes for the pointer at (ev.clientX, ev.clientY). */
  function Box(d: DragData, ev: DragEvent): OverlayBox
  {
    var left := ev.clientX - d.offsetLeft;
    var top := ev.clientY - d.offsetTop;
    OverlayBox(ev.clientX, ev.clientY, d.rect, left, top, d.offsetRight - left, d.offsetBottom - top, d.width, d.height)
  }

  /**
    A drag moving over the area. Without drag state it is declined; on the
    edge margin the overlay is hidden and it is declined; otherwise the
    overlay is shown at the pointer and the proposed action is accepted.
   */
  function DragOver(cfg: AreaConfig, st: AreaState, ev: DragEvent): (r: Outcome)
    ensures r.accepted <==> st.drag.Some? && !OnEdge(st.drag.value.rect, ev.clientX, ev.clientY)
    ensures r.accepted ==> r.dropAction == Some(ev.proposedAction) && r.state.overlayVisible
    ensures r.accepted ==> 0 < |r.effects| && r.effects[|r.effects| - 1] == ShowOverlayBox(Box(st.drag.value, ev))
    ensures !r.accepted ==> r.dropAction.None?
    ensures st.drag.Some? && !r.accepted ==> !r.state.overlayVisible
    ensures st.drag.None? ==> r == Outcome(false, st, [], None)
    ensures r.state.drag == st.drag
  {
    match st.drag
    case None => Outcome(false, st, [], None)
    case Some(d) =>
      if OnEdge(d.rect, ev.clientX, ev.clientY) then
        var h := HideOverlay(cfg, st);
        Outcome(false, h.state, h.effects, None)
      else
        var s := ShowOverlay(cfg, st);
        Outcome(true, s.state, s.effects + [ShowOverlayBox(Box(d, ev))], Some(ev.proposedAction))
  }

  /** The drag state an accepted enter records. */
  function EnterData(cfg: AreaConfig, m: Measure, w: DraggedWidget): DragData
  {
    var imageOffsetX := if m.image.Some? then m.image.value.offsetLeft - m.image.value.rectLeft else 0.0;
    var imageOffsetY := if m.image.Some? then m.image.value.offsetTop - m.image.value.rectTop else 0.0;
    var imageHeight := if m.image.Some? then m.image.value.offsetHeight else 0.0;
    var size := PreviewSize(w, m.rect);
    DragData(
      m.rect, size.width, size.height, imageOffsetX, imageOffsetY,
      m.parentRect.left + imageOffsetX,
      m.parentRect.top + imageOffsetY - imageHeight,
      m.parentRect.width - size.width as real - cfg.edgeWidth,
      m.parentRect.height - size.height as real - cfg.edgeHeight)
  }

  /**
    A drag entering the area. Only a drag carrying a usable widget is
    accepted; it records fresh drag state with the overlay marked hidden and
    then runs the drag-over logic, whose own verdict does not change the
    acceptance.
   */
  function DragEnter(cfg: AreaConfig, st: AreaState, ev: DragEvent, m: Measure, widget: Option<DraggedWidget>): (r: Outcome)
    ensures r.accepted <==> widget.Some?
    ensures !r.accepted ==> r == Outcome(false, st, [], None)
    ensures r.accepted ==> r.state.drag == Some(EnterData(cfg, m, widget.value))
    ensures r.accepted ==> (r.state.overlayVisible <==> !OnEdge(m.rect, ev.clientX, ev.clientY))
  {
    match widget
    case None => Outcome(false, st, [], None)
    case Some(w) =>
      var over := DragOver(cfg, AreaState(Some(EnterData(cfg, m, w)), false), ev);
      Outcome(true, over.state, over.effects, over.dropAction)
  }

  /**
    The overlay drawn on any drag-over after an accepted enter spans the
    overlay parent exactly: left + width + right plus the border sum is the
    parent's width, and likewise vertically.
   */
  lemma OverlayBoxFillsParent(cfg: AreaConfig, st: AreaState, enter: DragEvent, m: Measure, w: DraggedWidget, ev: DragEvent)
    ensures var entered := DragEnter(cfg, st, enter, m, Some(w)).state;
      var over := DragOver(cfg, entered, ev);
      over.accepted ==>
        var box := over.effects[|over.effects| - 1].box;
        && box.left + box.width as real + box.right + cfg.edgeWidth == m.parentRect.width
        && box.top + box.height as real + box.bottom + cfg.edgeHeight == m.parentRect.height
  {
  }

  /**
    A drag leaving the area. When the pointer moved onto something outside
    the area (or nowhere), the overlay is hidden and the drag state dropped;
    a move onto one of the area's own descendants changes nothing.
   */
  function DragLeave(cfg: AreaConfig, st: AreaState, relatedInside: bool): (r: Transition)
    ensures relatedInside ==> r == Transition(st, [])
    ensures !relatedInside ==> r.state == AreaState(None, false)
    ensures !relatedInside ==> r.effects == HideOverlay(cfg, st).effects
  {
    if relatedInside then Transition(st, [])
    else
      var h := HideOverlay(cfg, st);
      Transition(AreaState(None, h.state.overlayVisible), h.effects)
  }

  /**
    After a leave to outside the area the drag is over: a later drag-over and
    a later drop are both declined, and the drop schedules nothing. A leave
    onto one of the area's own descendants keeps the drag-over verdict.
   */
  lemma LeaveEndsDrag(cfg: AreaConfig, st: AreaState, ev: DragEvent, widget: Option<DraggedWidget>)
    ensures var gone := DragLeave(cfg, st, false).state;
      && !gone.overlayVisible
      && !DragOver(cfg, gone, ev).accepted
      && !Drop(cfg, gone, ev, widget).accepted && Drop(cfg, gone, ev, widget).pending.None?
    ensures DragOver(cfg, DragLeave(cfg, st, true).state, ev) == DragOver(cfg, st, ev)
  {
  }

  /** The add request scheduled after an accepted drop, with what it captures. */
  datatype PendingAdd = PendingAdd(
    widget: nat, clientX: real, clientY: real,
    imageOffsetX: real, imageOffsetY: real, width: int, height: int)

  /** The options the scheduled add passes, given the area's rectangle when it runs. */
  datatype AddOptions = AddOptions(left: real, top: real, width: int, height: int)

  /** The options of the scheduled add, relative to the area's rectangle when it runs. */
  function Placement(p: PendingAdd, areaRect: Rect): AddOptions
  {
    AddOptions(p.clientX - areaRect.left - p.imageOffsetX, p.clientY - areaRect.top - p.imageOffsetY, p.width, p.height)
  }

  datatype DropOutcome = DropOutcome(
    accepted: bool, state: AreaState, effects: seq<Effect>,
    dropAction: Option<DropAction>, pending: Option<PendingAdd>)

  /**
    A drop. The overlay node is hidden first in every case (without touching
    the visibility flag or the drag state). The drop is declined without
    deparenting anything when there is no drag state, when the pointer is on
    the edge margin, or when the dragged widget is unknown; only the last
    sets the drop action to 'none'. Otherwise the widget is deparented, an
    add is scheduled and the proposed action is accepted.
   */
  function Drop(cfg: AreaConfig, st: AreaState, ev: DragEvent, widget: Option<DraggedWidget>): (r: DropOutcome)
    ensures r.state == st
    ensures 0 < |r.effects| && r.effects[0] == HideOverlayNode
    ensures r.accepted <==>
      st.drag.Some? && !OnEdge(st.drag.value.rect, ev.clientX, ev.clientY) && widget.Some?
    ensures r.accepted <==> r.pending.Some?
    ensures !r.accepted ==> forall e :: e in r.effects ==> !e.Deparent?
    ensures !r.accepted ==>
      (r.dropAction.Some? <==> st.drag.Some? && !OnEdge(st.drag.value.rect, ev.clientX, ev.clientY))
    ensures !r.accepted && r.dropAction.Some? ==> r.dropAction == Some(NoAction)
    ensures r.accepted ==>
      && r.dropAction == Some(ev.proposedAction)
      && r.effects[|r.effects| - 1] == Deparent(widget.value.id)
      && r.pending.value.width == st.drag.value.width
      && r.pending.value.height == st.drag.value.height
  {
    var hidden := [HideOverlayNode] + (if cfg.ownOverlay then [] else [RemoveNoTransition]);
    match st.drag
    case None => DropOutcome(false, st, hidden, None, None)
    case Some(d) =>
      if OnEdge(d.rect, ev.clientX, ev.clientY) then DropOutcome(false, st, hidden, None, None)
      else match widget
        case None => DropOutcome(false, st, hidden, Some(NoAction), None)
        case Some(w) =>
          DropOutcome(true, st, hidden + [Deparent(w.id)], Some(ev.proposedAction),
            Some(PendingAdd(w.id, ev.clientX, ev.clientY, d.imageOffsetX, d.imageOffsetY, d.width, d.height)))
  }

  /**
    A drop at (500, 300) on an area at (0, 0, 1000, 800) after the widget
    entered is accepted, and the new dialog is placed where the drag image's
    corner was when the area has not moved.
   */
  lemma DropInMiddleAccepted(cfg: AreaConfig, st: AreaState, enter: DragEvent, m: Measure, w: DraggedWidget, proposed: DropAction)
    requires m.rect == Rect(0.0, 0.0, 1000.0, 800.0, 1000.0, 800.0)
    ensures var entered := DragEnter(cfg, st, enter, m, Some(w)).state;
      var ev := DragEvent(500.0, 300.0, proposed);
      var dropped := Drop(cfg, entered, ev, Some(w));
      && dropped.accepted
      && dropped.dropAction == Some(proposed)
      && Placement(dropped.pending.value, m.rect).left == 500.0 - entered.drag.value.imageOffsetX
      && Placement(dropped.pending.value, m.rect).top == 300.0 - entered.drag.value.imageOffsetY
  {
  }

  /**
    For any accepted enter followed by a drop, the drop is accepted exactly
    when the pointer is off the edge of the area measured on enter, and the
    dialog it schedules has the preview size, with its corner placed, in
    viewport coordinates, at the pointer less the drag image's offset between
    its layout position and its on-screen position (at the pointer itself
    when no drag image is shown), wherever the area has moved to since.
   */
  lemma DropPlacesAtImageCorner(cfg: AreaConfig, st: AreaState, enter: DragEvent, m: Measure, w: DraggedWidget, ev: DragEvent, areaRect: Rect)
    ensures var entered := DragEnter(cfg, st, enter, m, Some(w)).state;
      var dropped := Drop(cfg, entered, ev, Some(w));
      && (dropped.accepted <==> !OnEdge(m.rect, ev.clientX, ev.clientY))
      && (dropped.accepted ==>
        var o := Placement(dropped.pending.value, areaRect);
        && PixelSize(o.width, o.height) == PreviewSize(w, m.rect)
        && (m.image.None? ==> o.left + areaRect.left == ev.clientX && o.top + areaRect.top == ev.clientY)
        && (m.image.Some? ==>
          && o.left + areaRect.left == ev.clientX - (m.image.value.offsetLeft - m.image.value.rectLeft)
          && o.top + areaRect.top == ev.clientY - (m.image.value.offsetTop - m.image.value.rectTop)))
  {
  }
}

=== FILE: resize_handle.dfy ===
/**
  The resize handles of a dialog and the class-name pattern a mouse-down
  uses to recognise them (src/Dialog.ts).

  A dialog node carries eight handle elements. Each one's class attribute is
  the base class followed by two modifier classes: a cursor token (`ns`,
  `ew`, `nwse`, `nesw`) and the direction token (`n`, `e`, ...). On a
  mouse-down the class attribute is matched against the regular expression

      charto-Dialog-resize-([ns]?)([ew]?)( |$)

  with JavaScript's `String.prototype.match` (no global flag): the leftmost
  position where the pattern matches wins, and at that position the optional
  groups are tried greedily with backtracking. This module models that
  matcher exactly for this one pattern.
 */
module ResizeHandle {
  import opened Wrappers

  /** The class every handle carries. */
  const ResizeClass: string := "charto-Dialog-resize"

  /** The literal part of the pattern, and the prefix of every modifier class. */
  const ResizePrefix: string := "charto-Dialog-resize-"

  /** The two capture groups; `None` stands for the empty (falsy) capture. */
  datatype Groups = Groups(vertical: Option<char>, horizontal: Option<char>)

  /** A successful match: where it starts in the class attribute and what it captured. */
  datatype Match = Match(index: nat, groups: Groups)

  predicate StartsWithPrefix(s: string)
  {
    |ResizePrefix| <= |s| && s[..|ResizePrefix|] == ResizePrefix
  }

  /** The `( |$)` alternative at offset k of r: a space, or the end of the string. */
  predicate Terminated(r: string, k: nat)
  {
    k == |r| || (k < |r| && r[k] == ' ')
  }

  function Width(o: Option<char>): nat
  {
    if o.Some? then 1 else 0
  }

  /**
    Declarative reading of the pattern: s begins with a match whose captures are g.
    r is what follows the literal prefix.
   */
  predicate MatchesWith(s: string, g: Groups)
  {
    && StartsWithPrefix(s)
    && var r := s[|ResizePrefix|..];
    && Width(g.vertical) + Width(g.horizontal) <= |r|
    && (g.vertical.Some? ==> g.vertical.value in "ns" && r[0] == g.vertical.value)
    && (g.horizontal.Some? ==> g.horizontal.value in "ew" && r[Width(g.vertical)] == g.horizontal.value)
    && Terminated(r, Width(g.vertical) + Width(g.horizontal))
  }

  /**
    The order in which a backtracking engine tries the captures: both groups
    filled first, then only the first, then only the second, then neither.
   */
  function Rank(g: Groups): nat
  {
    (if g.vertical.Some? then 0 else 2) + (if g.horizontal.Some? then 0 else 1)
  }

  /** Second group and terminator, tried after the first group took `v`. */
  function TryHorizontal(r: string, v: Option<char>): (m: Option<Groups>)
    requires Width(v) <= |r|
  {
    var k := Width(v);
    if k < |r| && r[k] in "ew" && Terminated(r, k + 1) then Some(Groups(v, Some(r[k])))
    else if Terminated(r, k) then Some(Groups(v, None))
    else None
  }

  /**
    The pattern anchored at the start of s, trying the alternatives in the
    engine's backtracking order. The contract ties it to the declarative reading:
    it finds a match exactly when one exists, and the one it finds comes first
    in backtracking order.
   */
  function MatchHere(s: string): (m: Option<Groups>)
    ensures m.Some? ==> MatchesWith(s, m.value)
    ensures m.Some? ==> forall g :: MatchesWith(s, g) ==> Rank(m.value) <= Rank(g)
    ensures m.None? ==> forall g :: !MatchesWith(s, g)
  {
    if !StartsWithPrefix(s) then None
    else
      var r := s[|ResizePrefix|..];
      if 0 < |r| && r[0] in "ns" then
        var greedy := TryHorizontal(r, Some(r[0]));
        if greedy.Some? then greedy else TryHorizontal(r, None)
      else TryHorizontal(r, None)
  }

  /**
    `className.match(pattern)`: the leftmost position of s where the pattern
    matches, with the captures found there.
   */
  function Find(s: string): (m: Option<Match>)
    ensures m.Some? ==> m.value.index <= |s| && MatchHere(s[m.value.index..]) == Some(m.value.groups)
    ensures m.Some? ==> forall k :: 0 <= k < m.value.index ==> MatchHere(s[k..]).None?
    ensures m.None? ==> forall k :: 0 <= k <= |s| ==> MatchHere(s[k..]).None?
    decreases |s|
  {
    var here := MatchHere(s);
    if here.Some? then Some(Match(0, here.value))
    else if |s| == 0 then None
    else
      var rest := Find(s[1..]);
      assert forall k :: 1 <= k <= |s| ==> MatchHere(s[k..]) == MatchHere(s[1..][k - 1..]) by {
        forall k | 1 <= k <= |s| ensures s[k..] == s[1..][k - 1..] {}
      }
      if rest.Some? then Some(Match(rest.value.index + 1, rest.value.groups)) else None
  }

  /** Moves a match found in a suffix back to an index of the whole string. */
  function Shift(m: Option<Match>, n: nat): Option<Match>
  {
    if m.Some? then Some(Match(m.value.index + n, m.value.groups)) else None
  }

  /**
    No match can start at a character other than the pattern's first letter,
    so the search passes over any run of text without a 'c'.
   */
  lemma {:induction false} FindSkips(t: string, rest: string)
    requires 'c' !in t
    ensures Find(t + rest) == Shift(Find(rest), |t|)
  {
    if |t| == 0 {
      assert t + rest == rest;
    } else {
      var s := t + rest;
      assert s[0] == t[0];
      if |ResizePrefix| <= |s| {
        assert s[..|ResizePrefix|][0] == s[0];
      }
      assert s[1..] == t[1..] + rest;
      FindSkips(t[1..], rest);
    }
  }

  /** The cursor and direction tokens of the eight handles, in creation order. */
  const Handles: seq<(string, string)> :=
    [("ns", "n"), ("ew", "e"), ("ns", "s"), ("ew", "w"),
     ("nwse", "nw"), ("nesw", "ne"), ("nesw", "sw"), ("nwse", "se")]

  /** The class attribute of a handle: the base class plus one modifier class per token. */
  function HandleClassName(cursor: string, dir: string): string
  {
    ResizeClass + " " + ResizePrefix + cursor + " " + ResizePrefix + dir
  }

  /** The captures that spell a direction token: its vertical letter, then its horizontal one. */
  function DirectionGroups(dir: string): Groups
  {
    Groups(
      if 0 < |dir| && dir[0] in "ns" then Some(dir[0]) else None,
      if 0 < |dir| && dir[|dir| - 1] in "ew" then Some(dir[|dir| - 1]) else None)
  }

  /** A compound cursor token is followed by a letter, not by `( |$)`, so it never matches. */
  lemma CursorTokenRejected(cursor: string, rest: string)
    requires cursor in ["ns", "ew", "nwse", "nesw"]
    ensures MatchHere(ResizePrefix + cursor + " " + rest) == None
  {
    var s := ResizePrefix + cursor + " " + rest;
    assert s[..|ResizePrefix|] == ResizePrefix;
    assert s[|ResizePrefix|..] == cursor + " " + rest;
  }

  /** A direction token at the end of the attribute matches, capturing its own letters. */
  lemma DirectionTokenMatches(dir: string)
    requires dir in ["n", "e", "s", "w", "nw", "ne", "sw", "se"]
    ensures MatchHere(ResizePrefix + dir) == Some(DirectionGroups(dir))
  {
    var s := ResizePrefix + dir;
    assert s[..|ResizePrefix|] == ResizePrefix;
    assert s[|ResizePrefix|..] == dir;
  }

  /** The base class is followed by a space, not by '-', so the search moves on to the first modifier. */
  lemma BaseClassSkipped(middle: string)
    ensures Find(ResizeClass + " " + middle) == Shift(Find(middle), |ResizeClass| + 1)
  {
    var s := ResizeClass + " " + middle;
    assert MatchHere(s) == None by {
      if |ResizePrefix| <= |s| {
        assert s[..|ResizePrefix|][|ResizeClass|] == ' ';
      }
    }
    assert s[1..] == ResizeClass[1..] + " " + middle;
    assert 'c' !in ResizeClass[1..] + " ";
    FindSkips(ResizeClass[1..] + " ", middle);
  }

  /** The cursor modifier does not match, so the search moves on to the direction modifier. */
  lemma CursorClassSkipped(cursor: string, tail: string)
    requires cursor in ["ns", "ew", "nwse", "nesw"]
    ensures Find(ResizePrefix + cursor + " " + tail) == Shift(Find(tail), |ResizePrefix| + |cursor| + 1)
  {
    var s := ResizePrefix + cursor + " " + tail;
    var skipped := ResizePrefix[1..] + cursor + " ";
    CursorTokenRejected(cursor, tail);
    assert 'c' !in skipped by {
      assert ResizePrefix[1..] == "harto-Dialog-resize-";
      assert 'c' !in cursor;
    }
    assert s[1..] == skipped + tail;
    FindSkips(skipped, tail);
    assert |skipped| + 1 == |ResizePrefix| + |cursor| + 1;
  }

  lemma ClassNameMatchesDirection(cursor: string, dir: string)
    requires cursor in ["ns", "ew", "nwse", "nesw"]
    requires dir in ["n", "e", "s", "w", "nw", "ne", "sw", "se"]
    ensures Find(HandleClassName(cursor, dir))
      == Some(Match(|ResizeClass| + 1 + |ResizePrefix| + |cursor| + 1, DirectionGroups(dir)))
  {
    var tail := ResizePrefix + dir;
    var middle := ResizePrefix + cursor + " " + tail;
    assert HandleClassName(cursor, dir) == ResizeClass + " " + middle;
    BaseClassSkipped(middle);
    CursorClassSkipped(cursor, tail);
    DirectionTokenMatches(dir);
  }

  /**
    For every handle the source creates, the leftmost match is the direction
    token: the base class is not followed by '-', and the cursor token is
    rejected by the `( |$)` anchor.
   */
  lemma HandleClassMatchesDirection(i: nat)
    requires i < |Handles|
    ensures var (cursor, dir) := Handles[i];
      Find(HandleClassName(cursor, dir))
      == Some(Match(|ResizeClass| + 1 + |ResizePrefix| + |cursor| + 1, DirectionGroups(dir)))
  {
    ClassNameMatchesDirection(Handles[i].0, Handles[i].1);
  }
}

=== FILE: simple_layout.dfy ===
/**
  The single-list layout dialogs use for their content (src/SimpleLayout.ts),
  with the one concrete update hook, DialogLayout's, which gives each child
  the full inner box (src/DialogLayout.ts).

  The parent widget is a record of what the layout reads from it: its node's
  children (by widget), whether it is attached and visible, its measured
  offset size and the padding and border sums of its node. Messages sent to
  widgets and calls into the framework are returned as effects, in order.
 */
module SimpleLayout {
  import opened Wrappers

  type WidgetId = nat

  /** The parts of the parent node's box sizing that `update` reads. */
  datatype BoxSizing = BoxSizing(paddingTop: int, paddingLeft: int, horizontalSum: int, verticalSum: int)

  datatype Parent = Parent(
    children: seq<WidgetId>, isAttached: bool, isVisible: bool,
    offsetWidth: int, offsetHeight: int, box: BoxSizing)

  datatype Layout = Layout(widgetList: seq<WidgetId>, parent: Option<Parent>)

  datatype WidgetMsg = BeforeAttach | AfterAttach | BeforeDetach | AfterDetach

  datatype Effect =
    | PrepareGeometry(widget: WidgetId)
    | Send(target: WidgetId, msg: WidgetMsg)
    | FitParent
    | UpdateRequestParent
    | Disposed(widget: WidgetId)

  /** The result of a step that can throw: removing a node that is not a child throws in the DOM. */
  datatype Outcome = Done(layout: Layout, effects: seq<Effect>) | Threw(effects: seq<Effect>)

  /** The widgets in insertion order, as `iter` yields them. */
  function Iter(l: Layout): seq<WidgetId>
  {
    l.widgetList
  }

  /** The parent after attaching a widget's node, and the effects of doing so. */
  datatype Attached = Attached(parent: Parent, effects: seq<Effect>)

  /**
    Attaches a widget's node to the parent node: nothing happens when it is
    already a child; otherwise its geometry is prepared and its node appended,
    bracketed by attach messages when the parent is attached.
   */
  function AttachWidget(p: Parent, w: WidgetId): (r: Attached)
    ensures w in p.children ==> r == Attached(p, [])
    ensures w !in p.children ==>
      && r.parent == p.(children := p.children + [w])
      && 0 < |r.effects| && r.effects[0] == PrepareGeometry(w)
      && (Send(w, AfterAttach) in r.effects <==> p.isAttached)
      && (Send(w, BeforeAttach) in r.effects <==> p.isAttached)
  {
    if w in p.children then Attached(p, [])
    else
      var before := if p.isAttached then [Send(w, BeforeAttach)] else [];
      var after := if p.isAttached then [Send(w, AfterAttach)] else [];
      Attached(p.(children := p.children + [w]), [PrepareGeometry(w)] + before + after)
  }

  /** A layout after a step that cannot fail, with the step's effects. */
  datatype Step = Step(layout: Layout, effects: seq<Effect>)

  /**
    Appends a widget to the list, attaches it and asks the parent to fit.
    Earlier entries are left as they were.
   */
  function AddWidget(l: Layout, w: WidgetId): (r: Step)
    requires l.parent.Some?
    ensures r.layout.widgetList == l.widgetList + [w]
    ensures r.layout.parent.Some? && w in r.layout.parent.value.children
    ensures 0 < |r.effects| && r.effects[|r.effects| - 1] == FitParent
    ensures w in l.parent.value.children ==> r == Step(l.(widgetList := l.widgetList + [w]), [FitParent])
    ensures w !in l.parent.value.children ==>
      r.layout.parent == Some(l.parent.value.(children := l.parent.value.children + [w]))
  {
    var attached := AttachWidget(l.parent.value, w);
    Step(Layout(l.widgetList + [w], Some(attached.parent)), attached.effects + [FitParent])
  }

  /** Attaching the same node a second time does nothing. */
  lemma AttachIdempotent(p: Parent, w: WidgetId)
    ensures var once := AttachWidget(p, w);
      AttachWidget(once.parent, w) == Attached(once.parent, [])
  {
  }

  /** Adds the widgets one by one, in order. */
  function AddAll(l: Layout, ws: seq<WidgetId>): (r: Layout)
    requires l.parent.Some?
    ensures r.parent.Some?
    decreases |ws|
  {
    if |ws| == 0 then l else AddAll(AddWidget(l, ws[0]).layout, ws[1..])
  }

  /** Iteration yields the widgets in the order they were added, after those already there. */
  lemma {:induction false} IterInsertionOrder(l: Layout, ws: seq<WidgetId>)
    requires l.parent.Some?
    ensures Iter(AddAll(l, ws)) == Iter(l) + ws
    decreases |ws|
  {
    if |ws| > 0 {
      IterInsertionOrder(AddWidget(l, ws[0]).layout, ws[1..]);
      assert l.widgetList + [ws[0]] + ws[1..] == l.widgetList + ws;
    }
  }

  /** s without any occurrence of x, in order. */
  function Without(s: seq<WidgetId>, x: WidgetId): (r: seq<WidgetId>)
    ensures forall y :: y in r <==> y in s && y != x
    ensures |r| <= |s|
    ensures x !in s ==> r == s
    decreases |s|
  {
    if |s| == 0 then []
    else if s[0] == x then Without(s[1..], x)
    else [s[0]] + Without(s[1..], x)
  }

  /** Removing the single occurrence of x at index k keeps the others in their order. */
  lemma {:induction false} WithoutOne(s: seq<WidgetId>, x: WidgetId)
    ensures forall k :: 0 <= k < |s| && s[k] == x && x !in s[..k] && x !in s[k+1..] ==>
      Without(s, x) == s[..k] + s[k+1..]
    decreases |s|
  {
    if |s| > 0 {
      WithoutOne(s[1..], x);
      forall k | 0 <= k < |s| && s[k] == x && x !in s[..k] && x !in s[k+1..]
        ensures Without(s, x) == s[..k] + s[k+1..]
      {
        if k == 0 {
          assert s[1..] == s[k+1..];
        } else {
          WithoutOneStep(s, x, k);
        }
      }
    }
  }

  /** The step of WithoutOne past a first element that is not x. */
  lemma WithoutOneStep(s: seq<WidgetId>, x: WidgetId, k: nat)
    requires 0 < k < |s| && s[k] == x && x !in s[..k] && x !in s[k+1..]
    requires Without(s[1..], x) == s[1..][..k-1] + s[1..][k..]
    ensures Without(s, x) == s[..k] + s[k+1..]
  {
    assert s[0] in s[..k];
    assert Without(s, x) == [s[0]] + Without(s[1..], x);
    assert s[1..][..k-1] == s[1..k];
    assert s[1..][k..] == s[k+1..];
    assert [s[0]] + s[1..k] == s[..k];
  }

  /**
    Removes a widget. Without a parent nothing happens. With one, the node is
    detached (bracketed by detach messages when the parent is attached) and
    the parent asked to fit; the DOM throws if the node is not a child. The
    widget list is never shortened.
   */
  function RemoveWidget(l: Layout, w: WidgetId): (r: Outcome)
    ensures l.parent.None? ==> r == Done(l, [])
    ensures r.Done? ==> r.layout.widgetList == l.widgetList
    ensures r.Threw? <==> l.parent.Some? && w !in l.parent.value.children
    ensures r.Done? && l.parent.Some? ==>
      && r.layout.parent.Some?
      && w !in r.layout.parent.value.children
      && (forall v :: v != w ==> (v in r.layout.parent.value.children <==> v in l.parent.value.children))
      && 0 < |r.effects| && r.effects[|r.effects| - 1] == FitParent
    ensures r.Done? && l.parent.Some? ==>
      r.layout.parent.value.(children := l.parent.value.children) == l.parent.value
    ensures r.Done? && l.parent.Some? ==>
      var cs := l.parent.value.children;
      forall k :: 0 <= k < |cs| && cs[k] == w && w !in cs[..k] && w !in cs[k+1..] ==>
        r.layout.parent.value.children == cs[..k] + cs[k+1..]
  {
    match l.parent
    case None => Done(l, [])
    case Some(p) =>
      var before := if p.isAttached then [Send(w, BeforeDetach)] else [];
      if w !in p.children then Threw(before)
      else
        WithoutOne(p.children, w);
        var after := if p.isAttached then [Send(w, AfterDetach)] else [];
        Done(Layout(l.widgetList, Some(p.(children := Without(p.children, w)))), before + after + [FitParent])
  }

  /** A fit request: the parent is asked to update only when it is attached. */
  function OnFitRequest(l: Layout): seq<Effect>
    requires l.parent.Some?
  {
    if l.parent.value.isAttached then [UpdateRequestParent] else []
  }

  /** A child's box: origin and size. */
  datatype Rect = Rect(x: int, y: int, width: int, height: int)

  /**
    The inner box handed to the children: the outer size less the padding and
    border sums, with the origin taken as (paddingTop, paddingLeft) in that
    order.
   */
  function InnerBox(b: BoxSizing, width: int, height: int): Rect
  {
    Rect(b.paddingTop, b.paddingLeft, width - b.horizontalSum, height - b.verticalSum)
  }

  /** One call of the `updateWidget` hook. */
  datatype Call = UpdateWidgetCall(widget: WidgetId, box: Rect)

  /** The fan-out: one hook call per listed widget, in list order, all with the same box. */
  function UpdateWidgets(ws: seq<WidgetId>, box: Rect): (calls: seq<Call>)
    ensures |calls| == |ws|
    ensures forall i :: 0 <= i < |ws| ==> calls[i] == UpdateWidgetCall(ws[i], box)
    decreases |ws|
  {
    if |ws| == 0 then [] else [UpdateWidgetCall(ws[0], box)] + UpdateWidgets(ws[1..], box)
  }

  function Update(l: Layout, width: int, height: int): (calls: seq<Call>)
    requires l.parent.Some?
    ensures |calls| == |l.widgetList|
    ensures forall i :: 0 <= i < |calls| ==>
      calls[i] == UpdateWidgetCall(l.widgetList[i], InnerBox(l.parent.value.box, width, height))
  {
    UpdateWidgets(l.widgetList, InnerBox(l.parent.value.box, width, height))
  }

  /** An update request: update from the parent's measured size, only when it is visible. */
  function OnUpdateRequest(l: Layout): (calls: seq<Call>)
    requires l.parent.Some?
    ensures !l.parent.value.isVisible ==> calls == []
    ensures l.parent.value.isVisible ==> |calls| == |l.widgetList|
    ensures l.parent.value.isVisible ==> forall i :: 0 <= i < |calls| ==>
      calls[i].widget == l.widgetList[i]
      && calls[i].box.x == l.parent.value.box.paddingTop && calls[i].box.y == l.parent.value.box.paddingLeft
      && calls[i].box.width == l.parent.value.offsetWidth - l.parent.value.box.horizontalSum
      && calls[i].box.height == l.parent.value.offsetHeight - l.parent.value.box.verticalSum
  {
    if l.parent.value.isVisible then Update(l, l.parent.value.offsetWidth, l.parent.value.offsetHeight) else []
  }

  /** A resize: update from the message's size, not the measured one, only when visible. */
  function OnResize(l: Layout, msgWidth: int, msgHeight: int): (calls: seq<Call>)
    requires l.parent.Some?
    ensures !l.parent.value.isVisible ==> calls == []
    ensures l.parent.value.isVisible ==> |calls| == |l.widgetList|
    ensures l.parent.value.isVisible ==> forall i :: 0 <= i < |calls| ==>
      calls[i].widget == l.widgetList[i]
      && calls[i].box.x == l.parent.value.box.paddingTop && calls[i].box.y == l.parent.value.box.paddingLeft
      && calls[i].box.width == msgWidth - l.parent.value.box.horizontalSum
      && calls[i].box.height == msgHeight - l.parent.value.box.verticalSum
  {
    if l.parent.value.isVisible then Update(l, msgWidth, msgHeight) else []
  }

  /** Disposes every listed widget, in order. */
  function Dispose(l: Layout): seq<Effect>
  {
    seq(|l.widgetList|, i requires 0 <= i < |l.widgetList| => Disposed(l.widgetList[i]))
  }

  /**
    Disposing a layout disposes the widgets it held and then every widget
    added to it since, in the order they were added.
   */
  lemma DisposeAfterAdds(l: Layout, ws: seq<WidgetId>)
    requires l.parent.Some?
    ensures var r := Dispose(AddAll(l, ws));
      && |r| == |l.widgetList| + |ws|
      && (forall i :: 0 <= i < |l.widgetList| ==> r[i] == Disposed(l.widgetList[i]))
      && (forall i :: 0 <= i < |ws| ==> r[|l.widgetList| + i] == Disposed(ws[i]))
  {
    IterInsertionOrder(l, ws);
    var after := AddAll(l, ws);
    assert after.widgetList == l.widgetList + ws;
    var r := Dispose(after);
    assert forall i :: 0 <= i < |ws| ==> after.widgetList[|l.widgetList| + i] == ws[i];
    assert forall i :: 0 <= i < |l.widgetList| ==> after.widgetList[i] == l.widgetList[i];
  }

  /**
    A widget added to an attached, visible parent gets laid out: the fit
    request the add ends with makes the parent request an update, and that
    update gives the new widget, last in order, the inner box of the parent's
    measured size. With a detached parent the fit request asks for nothing.
   */
  lemma AddedWidgetLaidOut(l: Layout, w: WidgetId)
    requires l.parent.Some?
    ensures var after := AddWidget(l, w).layout;
      && (l.parent.value.isAttached <==> OnFitRequest(after) == [UpdateRequestParent])
      && (!l.parent.value.isAttached <==> OnFitRequest(after) == [])
    ensures l.parent.value.isVisible ==>
      var p := l.parent.value;
      var calls := OnUpdateRequest(AddWidget(l, w).layout);
      && |calls| == |l.widgetList| + 1
      && calls[|l.widgetList|] == UpdateWidgetCall(w, InnerBox(p.box, p.offsetWidth, p.offsetHeight))
  {
  }

  /** Since removal keeps the list, disposing the layout still disposes a removed widget. */
  lemma RemovedWidgetStillDisposed(l: Layout, w: WidgetId)
    requires w in l.widgetList
    requires RemoveWidget(l, w).Done?
    ensures Disposed(w) in Dispose(RemoveWidget(l, w).layout)
  {
    var i :| 0 <= i < |l.widgetList| && l.widgetList[i] == w;
    assert Dispose(RemoveWidget(l, w).layout)[i] == Disposed(w);
  }

  /** What DialogLayout's hook does with a call: set the widget's geometry to the box. */
  datatype Assignment = SetGeometry(widget: WidgetId, box: Rect)

  function DialogUpdateWidget(c: Call): Assignment
  {
    SetGeometry(c.widget, c.box)
  }

  /**
    In a dialog, a visible resize gives every child the whole inner box: the
    new size less the parent's padding and border sums.
   */
  lemma DialogChildrenFillInnerBox(l: Layout, msgWidth: int, msgHeight: int, i: nat)
    requires l.parent.Some? && l.parent.value.isVisible
    requires i < |l.widgetList|
    ensures var calls := OnResize(l, msgWidth, msgHeight);
      i < |calls| && DialogUpdateWidget(calls[i]) == SetGeometry(l.widgetList[i], InnerBox(l.parent.value.box, msgWidth, msgHeight))
  {
  }
}

=== FILE: wrappers.dfy ===
/** The optional-value datatype used in place of the source's `null` returns. */
module Wrappers {

  datatype Option<+T> = None | Some(value: T)
}
